=== FILE: README.md ===
# NDVI change analysis, modelled in Dafny

A model of the core of geode's NDVI analyser (`geode/analysis/ndvi.py`). The
analyser works as follows:

- It samples random points inside an area of interest by bounded rejection
  sampling in the polygon's bounding box.
- For every point it fetches one vegetation-index (NDVI) observation for a
  start year and one for an end year.
- It pairs the two observations into a change record, the end index minus
  the start index. A point with a missing observation, a timeout or any other
  exception is dropped.
- It reports the numeric content of its outputs: the summary statistics of
  the changes, the table of significant changes sorted by change, the marker
  colour of every point on the map and the heat-layer intensity.

Modules, one file each:

- `Wrappers` (`wrappers.dfy`): `Option` and `Result`.
- `Geometry` (`geometry.dfy`): points, bounding boxes, and a region as its
  bounds plus an abstract containment test. It also models the uniform draw
  `lo + (hi - lo) * u` for `u` in [0, 1).
- `Sampler` (`sampler.dfy`): the point sampler. The random source is an
  injected function from the attempt number to the two unit draws of that
  attempt.
- `Observations` (`observations.dfy`): what a satellite-data fetch yields.
  The outcome of the catalog search is an input.
- `ChangeAnalysis` (`change_analysis.dfy`): the per-point loop and the list of
  change records. It is proved equal to an independent filter-then-map
  reference.
- `Sorting` (`sorting.dfy`): insertion sort by a real key. Ascending
  arrangements of one multiset are unique.
- `Statistics` (`statistics.dfy`): sum, mean, median, minimum, maximum, counts,
  percentages and sample variance. It proves that each of them depends only on
  the multiset of values.
- `Report` (`report.dfy`): the statistics report, the significant-change
  table, the marker colours and the heat layer.

Behaviour at the edges, as the code has it:

- With no sampled points, the analysis returns an empty result. It does not
  raise.
- An empty result has no columns, so building its report fails at the first
  column lookup. This is modelled as `Failure(EmptyDataset)`.
- The significant table is sorted with the default (unstable) sort. The model
  therefore promises only "sorted by change and a permutation of the
  significant records", not an order among equal changes.
- The satellite-data fetch catches every exception itself and returns nothing
  (`geode/analysis/ndvi.py:84`, `117-120`). So a fetch never raises: the
  analysis loop's timeout handlers (`165-167`, `173-175`) and its general
  handler (`197-198`) cannot be reached through it. The model keeps those
  handlers through the `Fetch` variants, and `ChangeAnalysis.CatalogSource`
  builds the fetch from the catalog search, which never times out or raises.
  It uses the preview lookup corrected as under "## Findings"; the lookup as
  written only turns more fetches into no observation, which also never raises.

## Model

| member | source | states |
|---|---|---|
| Geometry.UniformInRange | geode/analysis/ndvi.py:55-56 | for `lo <= hi` the draw lies in `[lo, hi]`, strictly below `hi` when `lo < hi`, and is `lo` when the interval is a single point |
| Geometry.CandidateInBox | geode/analysis/ndvi.py:55-58 | a candidate point drawn from a well-formed bounding box lies inside that box |
| Sampler.Accepted | geode/analysis/ndvi.py:54-62 | after `k` draws at most `k` points are held, every one contained in the region and in its bounding box |
| Sampler.AllAcceptedWhenRegionIsEverything | geode/analysis/ndvi.py:59-60 | if the region contains every point, every one of the first `k` draws is kept |
| Sampler.NoneAcceptedWhenRegionIsEmpty | geode/analysis/ndvi.py:59-60 | if the region contains nothing, no draw is ever kept |
| Sampler.AcceptedGrows | geode/analysis/ndvi.py:54-62 | a later draw never loses an accepted point: the points held after `j` draws are a prefix of those held after any `k >= j` draws |
| Sampler.FirstStop | geode/analysis/ndvi.py:54 | if the draw before the stop still held fewer than `n` points, no earlier draw held `n` points, so the loop stops at the first opportunity |
| Sampler.StoppingPoint | geode/analysis/ndvi.py:52-62 | at the loop's stopping draw, an empty region has spent the whole `10 * n` budget with nothing accepted, and a region containing everything has stopped after exactly `n` draws |
| Sampler.GenerateRandomPoints | geode/analysis/ndvi.py:50-65 | the loop stops at the first draw where `n` points are held, or after `10 * n` draws. It returns exactly the accepted points of the draws it consumed, at most `n` of them, all inside the region. A non-positive `n` gives no points and no draws. An empty region uses the whole budget and yields nothing. A region containing everything yields `n` points in `n` draws |
| Sampler.SampledIsUnique | geode/analysis/ndvi.py:50-65 | two results that both satisfy the sampler's stopping description (the accepted points of the first draw count holding `n` points, or of the whole budget) are equal. So the points are determined by the region, the count and the random draws |
| Observations.SatelliteData | geode/analysis/ndvi.py:101-120 | the corrected fetch (its preview lookup as intended, see "## Findings"): a fetch yields an observation exactly when the search returned at least one item. The observation carries the given index, the first item's time and preview link, and its cloud cover, which defaults to 0 |
| Observations.SatelliteDataAsWritten | geode/analysis/ndvi.py:101-120 | the fetch as written yields an observation exactly when the search returned an item and the first item has no visual asset. The observation then has no preview link. A visual asset makes the preview lookup raise, and the fetch's own handler turns that into no observation |
| Observations.AsWrittenDropsVisualItems | geode/analysis/ndvi.py:113-120 | the fetch as written returns nothing exactly where the corrected fetch returns an observation whose first item has a visual asset. On every other search outcome the two agree |
| ChangeAnalysis.CatalogPointNeverFails | geode/analysis/ndvi.py:84-198 | with the corrected fetch built from the catalog search, a point never fails. It is paired exactly when both year searches return at least one item. Its record then carries the two simulated indices, their difference, and the first items' times and preview links |
| ChangeAnalysis.Delivered | geode/analysis/ndvi.py:161-175 | a fetch that returned or timed out leaves an observation exactly when it produced one; a timeout leaves nothing |
| ChangeAnalysis.MakeRecord | geode/analysis/ndvi.py:181-193 | a record copies the point's position and both observations' fields unchanged, and its change is the end index minus the start index |
| ChangeAnalysis.ProcessPoint | geode/analysis/ndvi.py:159-198 | a point is paired exactly when both fetches produced an observation, and then its record pairs those two observations. It fails exactly when either fetch raised an exception other than a timeout |
| ChangeAnalysis.PairObservations | geode/analysis/ndvi.py:155-200 | the loop yields at most one record per point, and each record's change is its end index minus its start index |
| ChangeAnalysis.PairablePoints | geode/analysis/ndvi.py:177 | reference filter: keeps exactly the points whose two fetches both produced an observation |
| ChangeAnalysis.DroppedPoints | geode/analysis/ndvi.py:194-198 | reference filter: keeps exactly the points that yield no record |
| ChangeAnalysis.RecordsFor | geode/analysis/ndvi.py:181-193 | reference map: one record per pairable point, pairing that point's two observations |
| ChangeAnalysis.Locations | geode/analysis/ndvi.py:182-183 | the positions of the records, one per record, in order |
| ChangeAnalysis.PairObservationsIsFilterThenMap | geode/analysis/ndvi.py:155-200 | the loop's records equal the reference: filter the pairable points, then build their records |
| ChangeAnalysis.RecordLocationsArePairablePoints | geode/analysis/ndvi.py:155-193 | the positions of the records are exactly the pairable points, in point order |
| ChangeAnalysis.PairablePointsIsSubsequence | geode/analysis/ndvi.py:155-177 | the pairable points are a subsequence of the sampled points, so the records keep the points' order |
| ChangeAnalysis.RecordsPlusDroppedIsAllPoints | geode/analysis/ndvi.py:177-198 | every sampled point is either recorded or dropped, never both: the record count plus the dropped count is the point count |
| ChangeAnalysis.RecordsComeFromPairablePoints | geode/analysis/ndvi.py:177-193 | every record pairs the two observations of some point whose fetches both produced one |
| ChangeAnalysis.PairablePointsAreRecorded | geode/analysis/ndvi.py:177-193 | every point whose fetches both produced an observation has its record among the results |
| ChangeAnalysis.UniformSourceGivesUniformChange | geode/analysis/ndvi.py:186 | if every start observation has index `a` and every end observation index `b`, every record's change is `b - a` |
| ChangeAnalysis.AnalyzeChanges | geode/analysis/ndvi.py:152-200 | the analysis samples points and pairs them. Every record pairs the two fetched observations of a sampled point that has both, copying every field, and every such point has its record. The record positions are exactly those points, in sampling order, all inside the region. There are at most `n` points and at most one record per point. A non-positive `n` gives nothing. In a region containing everything, with every fetch producing an observation, there are exactly `n` records. The points are the sampler's accepted points at its first stopping draw `attempts`: every earlier draw held fewer than `n` points, and the loop ends with `n` points or after the whole budget of `10 * n` draws. A region containing everything yields exactly `n` points |
| ChangeAnalysis.PairedRecordsAreTheLoopRecords | geode/analysis/ndvi.py:155-200 | records taken at the pairable points, in order, each pairing its point's two observations, are exactly the loop's records; so the analysis's records are determined by the points and the source |
| ChangeAnalysis.AllPairableDropsNothing | geode/analysis/ndvi.py:152-200 | if every point's fetches both produce an observation, no point is dropped and there is one record per point |
| Sorting.Insert | geode/analysis/ndvi.py:356 | inserting into a sorted sequence keeps it sorted and adds exactly the one element |
| Sorting.SortBy | geode/analysis/ndvi.py:356 | the sort result is ascending by the key and a permutation of its input |
| Statistics.Abs | geode/analysis/ndvi.py:329 | the magnitude is non-negative and equals the value or its negation |
| Statistics.Min | geode/analysis/ndvi.py:349 | the minimum is one of the values and no value is below it |
| Statistics.Max | geode/analysis/ndvi.py:349 | the maximum is one of the values and no value is above it |
| Statistics.Mean | geode/analysis/ndvi.py:346 | the mean lies between the minimum and the maximum |
| Statistics.MeanTimesCountIsSum | geode/analysis/ndvi.py:346 | `n` copies of the mean add up to the sum of the values |
| Statistics.UniformValues | geode/analysis/ndvi.py:346-349 | when every change is `c`, the mean, the median, the minimum and the maximum are all `c` |
| Statistics.Median | geode/analysis/ndvi.py:347 | the median lies between the minimum and the maximum |
| Statistics.MedianOfAscending | geode/analysis/ndvi.py:347 | for values already ascending, the median is taken at the middle of those values as given: the middle value, or the average of the two middle values |
| Statistics.Count | geode/analysis/ndvi.py:351-352 | a count of the values that satisfy a condition is at most the number of values |
| Statistics.DirectionsPartition | geode/analysis/ndvi.py:351-352 | every change is exactly one of a decrease, an increase or no change, so the three counts add up to the number of changes |
| Statistics.CountOfAll | geode/analysis/ndvi.py:351 | when every value satisfies the condition, the count is the number of values |
| Statistics.Percentage | geode/analysis/ndvi.py:351-352 | a percentage times the total is 100 times the count; it is non-negative, at most 100 for a count within the total, and exactly 100 for the whole total |
| Statistics.SampleVariance | geode/analysis/ndvi.py:348 | the sample variance is defined exactly from two values on, and is never negative |
| Statistics.TwoValueVariance | geode/analysis/ndvi.py:348 | fixes the `n - 1` divisor on two values: `a` and `b` have sample variance `(a - b)^2 / 2` |
| Statistics.ThreeValueVariance | geode/analysis/ndvi.py:348 | the changes 0, 1 and 2 have sample variance 1: squared deviations 1, 0 and 1 from the mean 1, over `n - 1 = 2` |
| Statistics.VarianceOfEqualValuesIsZero | geode/analysis/ndvi.py:348 | values that are all equal have sample variance 0 |
| Statistics.ExtremesDependOnlyOnMultiset | geode/analysis/ndvi.py:349 | reordering the changes leaves the minimum and the maximum unchanged |
| Statistics.MeanDependsOnlyOnMultiset | geode/analysis/ndvi.py:346 | reordering the changes leaves the mean unchanged |
| Statistics.MedianDependsOnlyOnMultiset | geode/analysis/ndvi.py:347 | reordering the changes leaves the median unchanged |
| Statistics.VarianceDependsOnlyOnMultiset | geode/analysis/ndvi.py:348 | reordering the changes leaves the sample variance unchanged |
| Statistics.FourChangeExample | geode/analysis/ndvi.py:346-352 | for the changes -0.3, -0.1, 0.0, 0.2 the figures are: mean -0.05, minimum -0.3, maximum 0.2, two decreases (50%) and one increase (25%) |
| Statistics.FourChangeMedian | geode/analysis/ndvi.py:347 | for those four changes the median is -0.05 |
| Report.Changes | geode/analysis/ndvi.py:346 | the change column has one entry per record, the record's change, in order |
| Report.SignificantRecords | geode/analysis/ndvi.py:356 | the significant records, those whose change is larger in magnitude than 0.1, each with its multiplicity and no other record |
| Report.SignificantChanges | geode/analysis/ndvi.py:356 | the significant table is ascending by change and holds exactly the significant records, each as often as it occurs |
| Report.MarkerColour | geode/analysis/ndvi.py:306-308 | a marker is red exactly below -0.1, orange exactly from -0.1 up to 0, and green exactly from 0 on |
| Report.MarkerColourAgreesWithSignificance | geode/analysis/ndvi.py:306-308 | a red marker is exactly a significant decrease, an orange one is never significant, and a green one is significant exactly when the change exceeds 0.1 |
| Report.CountMarkers | geode/analysis/ndvi.py:306-308 | there are at most as many markers of a colour as there are records |
| Report.DecreasesAreRedOrOrangeMarkers | geode/analysis/ndvi.py:306-308 | the report's decrease count equals the number of red and orange markers, and decreases plus green markers are all the records |
| Report.HeatData | geode/analysis/ndvi.py:329-330 | one heat point per record at the record's position. Its intensity is the change's magnitude, and it exceeds 0.1 exactly for the significant records |
| Report.PercentagesAdd | geode/analysis/ndvi.py:351-352 | percentages of one total add up like their counts |
| Report.PercentagesBounded | geode/analysis/ndvi.py:351-352 | the decrease and increase percentages together never exceed 100 |
| Report.DirectionFigures | geode/analysis/ndvi.py:351-352 | the decrease and increase counts and their percentages of all changes. With the unchanged points they add up to the number of changes |
| Report.Summarize | geode/analysis/ndvi.py:338-356 | the report fails exactly on no records. Otherwise it gives the count, and the mean, median and sample variance of the changes. Mean and median lie between the extremes, which are attained and bound every change. It also gives the direction counts with their percentages, and the significant table sorted by change |
| Report.ExtremesAreRecorded | geode/analysis/ndvi.py:349 | the minimum and the maximum change each belong to a record, and bound every record's change |
| Report.UniformChangeSummary | geode/analysis/ndvi.py:346-351 | when every record has the same change `c`, the report's mean and median are `c`. If `c` is a decrease, every point is counted as a decrease, 100% |

## Left out

- Printing, plotting, the folium map's tiles, pop-ups and layer control, and file output are left out. They are presentation and I/O. Only the marker colour and the heat intensity are modelled.
- The satellite catalog search is left out because it is network I/O. That covers the STAC client, the collection name, the ±0.02° box, the cloud-cover filter below 20, the June–August window and the session timeout. `Observations.SatelliteData` takes the search outcome as input.
- The simulated index (`_simulate_ndvi`) is left out: it draws from a normal distribution. It becomes the `ndvi` parameter of `Observations.SatelliteData`, and in the analysis every fetch outcome comes from the injected `Source` function.
- The polygon's containment test and bounds are left out: they belong to the geometry library, so the region carries them as given data.
- The random generator is left out. It becomes the injected `RandomSource`, and its uniformity is not modelled: only the range of each draw is.
- Floating-point rounding is left out: values are mathematical reals. The report's rounding to three or one decimals is display formatting.
- Sampler.GenerateRandomPoints: the default of 10 points is not modelled. The count is always passed.
- Statistics.SampleVariance: the standard deviation (the square root of the sample variance) is not modelled, because Dafny's reals have no square root. The variance is modelled instead. Its value is fixed only for two values (`Statistics.TwoValueVariance`), for equal values (`Statistics.VarianceOfEqualValuesIsZero`) and for the sample 0, 1, 2 (`Statistics.ThreeValueVariance`). The general identity for every input, `n - 1` times the variance equals the sum of squares less `n` times the squared mean, is not proved: it rests on nonlinear real arithmetic that the solver does not settle reliably.
- Statistics.VarianceOfEqualValuesIsZero: only one direction is proved. The converse, that a zero variance means all values are equal, is not.
- Statistics.Median: the contract states the bounds and, through `Statistics.MedianDependsOnlyOnMultiset` and `Statistics.MedianOfAscending`, the middle of the ascending order. It does not state the half-above/half-below property.
- The time-period line of the report (earliest start year to latest end year) is left out. Timestamps are opaque strings here.
- The interactive map's centre (the mean of the polygon's vertices) is left out, because the polygon's vertices are not part of the region model.
- Report.SignificantChanges: the order among equal changes is left open, because the source's default sort is not stable.
- The example invocation script (`examples/black_hills_analysis.py`) is not part of this model. It only builds an analyser and calls it.

## Findings

| source | as written | input that shows it | evidently intended | confidence | as-written member | corrected member |
|---|---|---|---|---|---|---|
| geode/analysis/ndvi.py:113 | `item.assets.get('visual', {}).get('href')`: the assets map holds asset objects, and an asset has no `get` method, so the lookup raises whenever a visual asset exists. The handler at ndvi.py:117-120 catches that, and the fetch returns nothing for that point and year | a search whose first item has a `visual` asset (`Observations.VisualAssetExample`) | the item's observation, with the visual asset's link as its preview link (the `href` of the asset) | not executed; relies on the catalog client's asset class having no `get` method, and that library is not part of this model | Observations.SatelliteDataAsWritten, with Observations.AsWrittenDropsVisualItems | Observations.SatelliteData, which `ChangeAnalysis.CatalogSource` uses |

=== FILE: change_analysis.dfy ===
/**
 Pairing of start-year and end-year observations of the sampled points into
 change records. A point yields a record only when both fetches produced an
 observation; a missing observation, a timeout or any other exception drops
 that point and the loop carries on with the next one.
 */
module ChangeAnalysis {
  import opened Wrappers
  import opened Geometry
  import opened Observations
  import Sampler

  /** One row of the analysis result: a point and its two observations. */
  datatype ChangeRecord = ChangeRecord(
    longitude: real,
    latitude: real,
    startNdvi: real,
    endNdvi: real,
    ndviChange: real,
    startDate: Timestamp,
    endDate: Timestamp,
    startPreview: Option<string>,
    endPreview: Option<string>,
    startCloud: real,
    endCloud: real)

  /** The observation source: the fetch of one point for one year. */
  type Source = (Point, int) -> Fetch

  /** What processing one point ends with. */
  datatype PointOutcome =
    | Paired(record: ChangeRecord)
    | NoValidData
    | Failed(message: string)

  /** Where a record was taken. */
  function Location(r: ChangeRecord): Point {
    Point(r.longitude, r.latitude)
  }

  /** The change of a record is the end index minus the start index. */
  predicate Consistent(r: ChangeRecord) {
    r.ndviChange == r.endNdvi - r.startNdvi
  }

  /**
   `r` is the record of point `p` with start observation `s` and end
   observation `e`: every field is copied unchanged, and the change is their
   difference.
   */
  predicate Pairs(r: ChangeRecord, p: Point, s: Observation, e: Observation) {
    && r.longitude == p.lon && r.latitude == p.lat
    && r.startNdvi == s.ndvi && r.endNdvi == e.ndvi
    && r.ndviChange == e.ndvi - s.ndvi
    && r.startDate == s.acquired && r.endDate == e.acquired
    && r.startPreview == s.previewUrl && r.endPreview == e.previewUrl
    && r.startCloud == s.cloudCover && r.endCloud == e.cloudCover
  }

  /** Both years' fetches of `p` produced an observation. */
  predicate BothFound(source: Source, p: Point, startYear: int, endYear: int) {
    Found(source(p, startYear)) && Found(source(p, endYear))
  }

  /** `r` is the record of one of `points` whose two fetches both produced an observation, and pairs those two observations. */
  predicate RecordOfPoint(source: Source, points: seq<Point>, startYear: int, endYear: int, r: ChangeRecord) {
    var p := Location(r);
    && p in points
    && BothFound(source, p, startYear, endYear)
    && Pairs(r, p, source(p, startYear).data.value, source(p, endYear).data.value)
  }

  /** The value a fetch that did not raise past the timeout handler leaves behind. */
  function Delivered(f: Fetch): (d: Option<Observation>)
    requires !f.Raised?
    ensures d.Some? <==> Found(f)
  {
    match f
    case Returned(data) => data
    case TimedOut => None
  }

  /** The record built from a point and its two observations. */
  function MakeRecord(p: Point, s: Observation, e: Observation): (r: ChangeRecord)
    ensures Pairs(r, p, s, e)
    ensures Consistent(r)
    ensures Location(r) == p
  {
    ChangeRecord(
      p.lon, p.lat, s.ndvi, e.ndvi, e.ndvi - s.ndvi,
      s.acquired, e.acquired, s.previewUrl, e.previewUrl, s.cloudCover, e.cloudCover)
  }

  /**
   One iteration of the per-point loop: fetch the start year (a timeout leaves
   nothing), fetch the end year (likewise), and pair the two when both are
   present. Any other exception from either fetch abandons the point.
   */
  function ProcessPoint(source: Source, p: Point, startYear: int, endYear: int): (o: PointOutcome)
    ensures o.Paired? <==> BothFound(source, p, startYear, endYear)
    ensures o.Paired? ==>
              Pairs(o.record, p, source(p, startYear).data.value, source(p, endYear).data.value)
    ensures o.Failed? <==> source(p, startYear).Raised? || source(p, endYear).Raised?
  {
    var startFetch := source(p, startYear);
    if startFetch.Raised? then Failed(startFetch.message)
    else
      var startData := Delivered(startFetch);
      var endFetch := source(p, endYear);
      if endFetch.Raised? then Failed(endFetch.message)
      else
        var endData := Delivered(endFetch);
        if startData.Some? && endData.Some? then
          Paired(MakeRecord(p, startData.value, endData.value))
        else
          NoValidData
  }

  /** The catalog search run for one point and one year. */
  type Search = (Point, int) -> SearchOutcome

  /** The vegetation index the fetch attaches to a found scene of one point and one year. */
  type IndexAt = (Point, int) -> real

  /** The search returned at least one item. */
  predicate HasItems(o: SearchOutcome) {
    o.Items? && |o.items| > 0
  }

  /**
   The observation source as the satellite-data fetch builds it once its
   preview lookup is corrected (`Observations.SatelliteDataAsWritten` is the
   lookup as written): it always returns, with an observation or without one,
   since the fetch catches every exception of the search itself.
   */
  function CatalogSource(search: Search, ndvi: IndexAt): Source {
    (p: Point, year: int) => Returned(SatelliteData(search(p, year), ndvi(p, year)))
  }

  /**
   With the fetch built from the catalog search, no exception reaches the per-point loop, so a
   point is never abandoned by the timeout or the general handler; it is
   paired exactly when both years' searches returned items, and then the
   record carries the two indices and the first items' metadata.
   */
  lemma CatalogPointNeverFails(search: Search, ndvi: IndexAt, p: Point, startYear: int, endYear: int)
    ensures !ProcessPoint(CatalogSource(search, ndvi), p, startYear, endYear).Failed?
    ensures (ProcessPoint(CatalogSource(search, ndvi), p, startYear, endYear).Paired?
             <==> HasItems(search(p, startYear)) && HasItems(search(p, endYear)))
    ensures ProcessPoint(CatalogSource(search, ndvi), p, startYear, endYear).Paired? ==>
              var r := ProcessPoint(CatalogSource(search, ndvi), p, startYear, endYear).record;
              && r.startNdvi == ndvi(p, startYear)
              && r.endNdvi == ndvi(p, endYear)
              && r.ndviChange == ndvi(p, endYear) - ndvi(p, startYear)
              && r.startDate == search(p, startYear).items[0].datetime
              && r.endDate == search(p, endYear).items[0].datetime
              && r.startPreview == search(p, startYear).items[0].visualHref
              && r.endPreview == search(p, endYear).items[0].visualHref
  {
  }

  /** The records of the points, in the order of the points, skipping the points that yield none. */
  function PairObservations(source: Source, points: seq<Point>, startYear: int, endYear: int)
    : (records: seq<ChangeRecord>)
    ensures |records| <= |points|
    ensures forall r :: r in records ==> Consistent(r)
  {
    if points == [] then []
    else
      var rest := PairObservations(source, points[1..], startYear, endYear);
      match ProcessPoint(source, points[0], startYear, endYear)
      case Paired(r) => [r] + rest
      case _ => rest
  }

  // ---------------------------------------------------------------------------
  // An independent reference definition: filter the points, then map them.
  // ---------------------------------------------------------------------------

  /** The points whose two fetches both produced an observation, in order. */
  function PairablePoints(source: Source, points: seq<Point>, startYear: int, endYear: int)
    : (ps: seq<Point>)
    ensures |ps| <= |points|
    ensures forall p :: p in ps ==> p in points && BothFound(source, p, startYear, endYear)
  {
    if points == [] then []
    else
      var rest := PairablePoints(source, points[1..], startYear, endYear);
      if BothFound(source, points[0], startYear, endYear) then [points[0]] + rest else rest
  }

  /** The points dropped by the analysis, in order. */
  function DroppedPoints(source: Source, points: seq<Point>, startYear: int, endYear: int)
    : (ps: seq<Point>)
    ensures |ps| <= |points|
    ensures forall p :: p in ps ==> p in points && !BothFound(source, p, startYear, endYear)
  {
    if points == [] then []
    else
      var rest := DroppedPoints(source, points[1..], startYear, endYear);
      if BothFound(source, points[0], startYear, endYear) then rest else [points[0]] + rest
  }

  /** The record of each of the given points, all of which have both observations. */
  function RecordsFor(source: Source, points: seq<Point>, startYear: int, endYear: int)
    : (records: seq<ChangeRecord>)
    requires forall i :: 0 <= i < |points| ==> BothFound(source, points[i], startYear, endYear)
    ensures |records| == |points|
    ensures forall i :: 0 <= i < |points| ==>
              BothFound(source, points[i], startYear, endYear) &&
              Pairs(records[i], points[i], source(points[i], startYear).data.value,
                    source(points[i], endYear).data.value)
  {
    if points == [] then []
    else
      var p := points[0];
      assert BothFound(source, p, startYear, endYear);
      [MakeRecord(p, source(p, startYear).data.value, source(p, endYear).data.value)]
        + RecordsFor(source, points[1..], startYear, endYear)
  }

  /** The locations of a sequence of records. */
  function Locations(records: seq<ChangeRecord>): (ps: seq<Point>)
    ensures |ps| == |records|
    ensures forall i :: 0 <= i < |records| ==> ps[i] == Location(records[i])
  {
    if records == [] then [] else [Location(records[0])] + Locations(records[1..])
  }

  /** `xs` is `ys` with some elements removed, the rest kept in order. */
  predicate IsSubsequence<T(==)>(xs: seq<T>, ys: seq<T>)
    decreases |ys|
  {
    if xs == [] then true
    else if ys == [] then false
    else (xs[0] == ys[0] && IsSubsequence(xs[1..], ys[1..])) || IsSubsequence(xs, ys[1..])
  }

  /**
   The per-point loop, with its exception handlers, computes exactly the
   filter-then-map reference: the records of the pairable points, in order.
   */
  lemma {:induction false} PairObservationsIsFilterThenMap(
    source: Source, points: seq<Point>, startYear: int, endYear: int)
    ensures PairObservations(source, points, startYear, endYear)
         == RecordsFor(source, PairablePoints(source, points, startYear, endYear), startYear, endYear)
  {
    if points != [] {
      PairObservationsIsFilterThenMap(source, points[1..], startYear, endYear);
    }
  }

  /** The record locations are exactly the pairable points, in the order they were sampled. */
  lemma {:induction false} RecordLocationsArePairablePoints(
    source: Source, points: seq<Point>, startYear: int, endYear: int)
    ensures Locations(PairObservations(source, points, startYear, endYear))
         == PairablePoints(source, points, startYear, endYear)
  {
    if points != [] {
      RecordLocationsArePairablePoints(source, points[1..], startYear, endYear);
      var rest := PairObservations(source, points[1..], startYear, endYear);
      match ProcessPoint(source, points[0], startYear, endYear)
      case Paired(r) =>
        assert ([r] + rest)[1..] == rest;
      case _ =>
    }
  }

  /** Filtering keeps the order of what it keeps. */
  lemma {:induction false} PairablePointsIsSubsequence(
    source: Source, points: seq<Point>, startYear: int, endYear: int)
    ensures IsSubsequence(PairablePoints(source, points, startYear, endYear), points)
  {
    if points != [] {
      PairablePointsIsSubsequence(source, points[1..], startYear, endYear);
      var rest := PairablePoints(source, points[1..], startYear, endYear);
      if BothFound(source, points[0], startYear, endYear) {
        assert ([points[0]] + rest)[1..] == rest;
      }
    }
  }

  /** Every sampled point is either paired into a record or dropped, never both. */
  lemma {:induction false} RecordsPlusDroppedIsAllPoints(
    source: Source, points: seq<Point>, startYear: int, endYear: int)
    ensures |PairObservations(source, points, startYear, endYear)|
            + |DroppedPoints(source, points, startYear, endYear)| == |points|
  {
    if points != [] {
      RecordsPlusDroppedIsAllPoints(source, points[1..], startYear, endYear);
    }
  }

  /**
   Every record stands for one sampled point whose two observations were
   both found, and carries those observations unchanged; in particular no
   record exists for a point with a missing observation.
   */
  lemma {:induction false} RecordsComeFromPairablePoints(
    source: Source, points: seq<Point>, startYear: int, endYear: int)
    ensures forall r :: r in PairObservations(source, points, startYear, endYear) ==>
              RecordOfPoint(source, points, startYear, endYear, r)
  {
    var records := PairObservations(source, points, startYear, endYear);
    var pairable := PairablePoints(source, points, startYear, endYear);
    PairObservationsIsFilterThenMap(source, points, startYear, endYear);
    forall r | r in records
      ensures RecordOfPoint(source, points, startYear, endYear, r)
    {
      var i :| 0 <= i < |records| && records[i] == r;
      assert pairable[i] in pairable;
    }
  }

  /** Every sampled point with both observations has its record in the result. */
  lemma {:induction false} PairablePointsAreRecorded(
    source: Source, points: seq<Point>, startYear: int, endYear: int)
    ensures forall p :: p in points && BothFound(source, p, startYear, endYear) ==>
              MakeRecord(p, source(p, startYear).data.value, source(p, endYear).data.value)
                in PairObservations(source, points, startYear, endYear)
  {
    if points != [] {
      PairablePointsAreRecorded(source, points[1..], startYear, endYear);
    }
  }

  /**
   The records are pinned down by where they were taken and what they copy:
   records at the pairable points, in sampling order, each pairing its
   point's two observations, can only be the loop's records.
   */
  lemma PairedRecordsAreTheLoopRecords(
    source: Source, points: seq<Point>, startYear: int, endYear: int, records: seq<ChangeRecord>)
    requires Locations(records) == PairablePoints(source, points, startYear, endYear)
    requires forall r :: r in records ==> RecordOfPoint(source, points, startYear, endYear, r)
    ensures records == PairObservations(source, points, startYear, endYear)
  {
    var pairable := PairablePoints(source, points, startYear, endYear);
    var expected := RecordsFor(source, pairable, startYear, endYear);
    PairObservationsIsFilterThenMap(source, points, startYear, endYear);
    forall i | 0 <= i < |records|
      ensures records[i] == expected[i]
    {
      assert records[i] in records;
      assert Location(records[i]) == pairable[i];
    }
  }

  /**
   A source that finds an observation for every point in both years, with
   index `a` in the start year and `b` in the end year, yields one record per
   point, each with change `b - a`.
   */
  lemma {:induction false} UniformSourceGivesUniformChange(
    source: Source, points: seq<Point>, startYear: int, endYear: int, a: real, b: real)
    requires forall p :: Found(source(p, startYear)) && source(p, startYear).data.value.ndvi == a
    requires forall p :: Found(source(p, endYear)) && source(p, endYear).data.value.ndvi == b
    ensures |PairObservations(source, points, startYear, endYear)| == |points|
    ensures forall r :: r in PairObservations(source, points, startYear, endYear) ==> r.ndviChange == b - a
  {
    if points != [] {
      UniformSourceGivesUniformChange(source, points[1..], startYear, endYear, a, b);
    }
  }

  /**
   The whole analysis: sample the points, then pair their observations. The
   points are the sampler's accepted points up to its first stopping draw,
   `attempts`. There is one record per sampled point with both observations,
   pairing them, in sampling order, at most the requested count and inside the
   region; by `PairedRecordsAreTheLoopRecords` these are exactly the pairing
   loop's records.
   */
  method AnalyzeChanges(
    region: Region, startYear: int, endYear: int, nPoints: int,
    rng: Sampler.RandomSource, source: Source)
    returns (points: seq<Point>, attempts: nat, records: seq<ChangeRecord>)
    ensures forall p :: p in points ==> region.contains(p)
    ensures nPoints > 0 ==> |records| <= |points| <= nPoints
    ensures nPoints <= 0 ==> points == [] && records == []
    ensures IsSubsequence(Locations(records), points)
    ensures Locations(records) == PairablePoints(source, points, startYear, endYear)
    ensures forall r :: r in records ==> Consistent(r) && region.contains(Location(r))
    ensures region.bounds.Valid() ==> forall r :: r in records ==> region.bounds.Holds(Location(r))
    ensures ((forall p :: region.contains(p)) && nPoints > 0
             && (forall p :: BothFound(source, p, startYear, endYear))) ==> |records| == nPoints
    ensures forall r :: r in records ==> RecordOfPoint(source, points, startYear, endYear, r)
    ensures forall p :: p in points && BothFound(source, p, startYear, endYear) ==>
              MakeRecord(p, source(p, startYear).data.value, source(p, endYear).data.value) in records
    ensures (forall p :: region.contains(p)) && nPoints > 0 ==> |points| == nPoints
    ensures points == Sampler.Accepted(region, rng, attempts)
    ensures attempts > 0 ==> |Sampler.Accepted(region, rng, attempts - 1)| < nPoints
    ensures nPoints <= 0 ==> attempts == 0
    ensures nPoints > 0 ==> attempts <= Sampler.MaxAttempts(nPoints)
    ensures nPoints > 0 ==> |points| == nPoints || attempts == Sampler.MaxAttempts(nPoints)
  {
    points, attempts := Sampler.GenerateRandomPoints(region, nPoints, rng);
    records := PairObservations(source, points, startYear, endYear);
    RecordLocationsArePairablePoints(source, points, startYear, endYear);
    PairablePointsIsSubsequence(source, points, startYear, endYear);
    RecordsComeFromPairablePoints(source, points, startYear, endYear);
    PairablePointsAreRecorded(source, points, startYear, endYear);
    RecordsPlusDroppedIsAllPoints(source, points, startYear, endYear);
    if forall p :: BothFound(source, p, startYear, endYear) {
      AllPairableDropsNothing(source, points, startYear, endYear);
    }
  }

  /** A source that finds everything drops no point. */
  lemma {:induction false} AllPairableDropsNothing(
    source: Source, points: seq<Point>, startYear: int, endYear: int)
    requires forall p :: BothFound(source, p, startYear, endYear)
    ensures DroppedPoints(source, points, startYear, endYear) == []
  {
    if points != [] {
      AllPairableDropsNothing(source, points[1..], startYear, endYear);
    }
  }
}

=== FILE: geometry.dfy ===
/**
 The sampling geometry: points, the polygon's bounding box, the region's
 point-in-polygon test and the uniform draw inside the box.
 */
module Geometry {

  /** A (longitude, latitude) pair. */
  datatype Point = Point(lon: real, lat: real)

  /** An axis-aligned box in the order a polygon reports its bounds: (minx, miny, maxx, maxy). */
  datatype Box = Box(minX: real, minY: real, maxX: real, maxY: real) {

    /** A box of a non-empty polygon: the minimum corner is below the maximum corner. */
    predicate Valid() {
      minX <= maxX && minY <= maxY
    }

    /** `p` lies in the closed box. */
    predicate Holds(p: Point) {
      minX <= p.lon <= maxX && minY <= p.lat <= maxY
    }
  }

  /**
   The area of interest. Both its bounding box and its `contains` test are
   computed by the geometry library, so both are taken as given here.
   */
  datatype Region = Region(bounds: Box, contains: Point -> bool)

  /** A number from the half-open unit interval [0, 1), what a random generator yields. */
  type Unit = r: real | 0.0 <= r < 1.0

  /** One attempt's worth of randomness: one unit number per axis. */
  datatype Draw = Draw(u: Unit, v: Unit)


  /** A uniform draw from [lo, hi), computed from a unit number the way numpy does. */
  function Uniform(lo: real, hi: real, u: Unit): real {
    lo + (hi - lo) * u
  }

  /** The draw stays in the closed interval, below its upper end when the interval is wide, and at `lo` when it is a single value. */
  lemma UniformInRange(lo: real, hi: real, u: Unit)
    ensures lo <= hi ==> lo <= Uniform(lo, hi, u) <= hi
    ensures lo < hi ==> Uniform(lo, hi, u) < hi
    ensures lo == hi ==> Uniform(lo, hi, u) == lo
  {
    var w := hi - lo;
    var rest := 1.0 - u;
    assert Uniform(lo, hi, u) == lo + w * u;
    assert w * u + w * rest == w;
    if w >= 0.0 {
      assert w * u >= 0.0;
      assert w * rest >= 0.0;
      assert w > 0.0 ==> w * rest > 0.0;
    }
  }

  /** The candidate point of one attempt: a uniform draw per axis over the box. */
  function Candidate(b: Box, d: Draw): Point {
    Point(Uniform(b.minX, b.maxX, d.u), Uniform(b.minY, b.maxY, d.v))
  }

  /** A candidate drawn from a valid box lies in that box. */
  lemma CandidateInBox(b: Box, d: Draw)
    ensures b.Valid() ==> b.Holds(Candidate(b, d))
  {
    UniformInRange(b.minX, b.maxX, d.u);
    UniformInRange(b.minY, b.maxY, d.v);
  }
}

=== FILE: observations.dfy ===
/**
 What one satellite-data fetch yields for one point and one year. The
 catalog search itself is network I/O and is not modelled; its outcome is an
 input here.
 */
module Observations {
  import opened Wrappers

  /** An acquisition time as the catalog reports it; never inspected by the model. */
  type Timestamp = string

  /** One vegetation-index observation and the metadata of the scene it came from. */
  datatype Observation = Observation(
    ndvi: real,
    acquired: Timestamp,
    cloudCover: real,
    previewUrl: Option<string>)

  /** The fields of a catalog item the fetch reads. */
  datatype Item = Item(
    datetime: Timestamp,
    cloudCover: Option<real>,
    visualHref: Option<string>)

  /** How the catalog search ended: the items it returned, or an exception. */
  datatype SearchOutcome = Items(items: seq<Item>) | SearchFailed(message: string)

  /**
   How one call of the fetch ended, as the per-point loop of the analysis sees
   it: it returned (a populated observation or nothing), it raised a timeout,
   or it raised some other exception.
   */
  datatype Fetch = Returned(data: Option<Observation>) | TimedOut | Raised(message: string)

  /** The fetch produced an observation. */
  predicate Found(f: Fetch) {
    f.Returned? && f.data.Some?
  }

  /**
   The satellite-data fetch once the search has been run: the first item
   found yields an observation carrying `ndvi`, its time, its cloud cover
   (0 when the item reports none) and its preview link; no item, or a failed
   search, yields nothing. It never raises. The preview link is the visual
   asset's link, as the lookup intends; `SatelliteDataAsWritten` is the
   lookup as the code has it.
   */
  function SatelliteData(search: SearchOutcome, ndvi: real): (r: Option<Observation>)
    ensures r.Some? <==> search.Items? && |search.items| > 0
    ensures r.Some? ==> r.value.ndvi == ndvi
    ensures r.Some? ==> r.value.acquired == search.items[0].datetime
    ensures r.Some? ==> r.value.previewUrl == search.items[0].visualHref
    ensures r.Some? && search.items[0].cloudCover.None? ==> r.value.cloudCover == 0.0
    ensures r.Some? && search.items[0].cloudCover.Some? ==> r.value.cloudCover == search.items[0].cloudCover.value
  {
    match search
    case SearchFailed(_) => None
    case Items(items) =>
      if |items| == 0 then None
      else
        var item := items[0];
        Some(Observation(ndvi, item.datetime, item.cloudCover.GetOr(0.0), item.visualHref))
  }

  /**
   The fetch as written at geode/analysis/ndvi.py:113. The item's assets map
   a key to an asset object, not to a dictionary, so the link lookup calls a
   dictionary method on an asset whenever a visual asset exists. That call
   raises, the fetch's own handler (geode/analysis/ndvi.py:117-120) catches
   it, and the fetch returns nothing. Only an item without a visual asset
   gets through, and its preview link is then absent.
   */
  function SatelliteDataAsWritten(search: SearchOutcome, ndvi: real): (r: Option<Observation>)
    ensures r.Some? <==> search.Items? && |search.items| > 0 && search.items[0].visualHref.None?
    ensures r.Some? ==> r.value.ndvi == ndvi && r.value.previewUrl.None?
    ensures r.Some? ==> r.value.acquired == search.items[0].datetime
  {
    match search
    case SearchFailed(_) => None
    case Items(items) =>
      if |items| == 0 || items[0].visualHref.Some? then None
      else
        var item := items[0];
        Some(Observation(ndvi, item.datetime, item.cloudCover.GetOr(0.0), None))
  }

  /**
   The two fetches agree except on a first item that has a visual asset: the
   corrected fetch returns its observation with the preview link, while the
   fetch as written returns nothing.
   */
  lemma AsWrittenDropsVisualItems(search: SearchOutcome, ndvi: real)
    ensures search.Items? && |search.items| > 0 && search.items[0].visualHref.Some? ==>
              SatelliteDataAsWritten(search, ndvi).None? && SatelliteData(search, ndvi).Some?
    ensures !(search.Items? && |search.items| > 0 && search.items[0].visualHref.Some?) ==>
              SatelliteDataAsWritten(search, ndvi) == SatelliteData(search, ndvi)
  {
  }

  /** The concrete input: one scene with a visual asset. */
  lemma VisualAssetExample()
    ensures SatelliteDataAsWritten(Items([Item("2023-07-01", Some(5.0), Some("https://x/visual.tif"))]), 0.6) == None
    ensures SatelliteData(Items([Item("2023-07-01", Some(5.0), Some("https://x/visual.tif"))]), 0.6)
            == Some(Observation(0.6, "2023-07-01", 5.0, Some("https://x/visual.tif")))
  {
  }
}

=== FILE: report.dfy ===
/**
 The numeric content of the outputs built from the change records: the
 summary statistics of the report, its significant-change table, the marker
 colour of each point on the map and the intensity of the heat layer.
 */
module Report {
  import opened Wrappers
  import opened Sorting
  import opened Statistics
  import opened ChangeAnalysis

  /** A change whose magnitude exceeds this is listed as significant. */
  const SignificanceThreshold: real := 0.1

  /** A marker for a change below this is drawn red. */
  const StrongDecreaseBelow: real := -0.1

  /** The change of a record, the key the significant table is sorted by. */
  function ChangeOf(r: ChangeRecord): real {
    r.ndviChange
  }

  /** The change column of the records. */
  function Changes(records: seq<ChangeRecord>): (xs: seq<real>)
    ensures |xs| == |records|
    ensures forall i :: 0 <= i < |records| ==> xs[i] == records[i].ndviChange
  {
    if records == [] then [] else [records[0].ndviChange] + Changes(records[1..])
  }

  /** The record's change is larger in magnitude than the threshold. */
  predicate IsSignificant(r: ChangeRecord) {
    Abs(r.ndviChange) > SignificanceThreshold
  }

  /** The significant records, each with its multiplicity, in their original order. */
  function SignificantRecords(records: seq<ChangeRecord>): (rs: seq<ChangeRecord>)
    ensures forall r :: multiset(rs)[r] == if IsSignificant(r) then multiset(records)[r] else 0
    ensures forall r :: r in rs <==> r in records && IsSignificant(r)
  {
    if records == [] then []
    else
      var rest := SignificantRecords(records[1..]);
      assert records == [records[0]] + records[1..];
      if IsSignificant(records[0]) then [records[0]] + rest else rest
  }

  /**
   The significant-change table: exactly the significant records, sorted
   ascending by change.
   */
  function SignificantChanges(records: seq<ChangeRecord>): (rs: seq<ChangeRecord>)
    ensures SortedBy(rs, ChangeOf)
    ensures forall r :: multiset(rs)[r] == if IsSignificant(r) then multiset(records)[r] else 0
    ensures forall r :: r in rs <==> r in records && IsSignificant(r)
  {
    var kept := SignificantRecords(records);
    var sorted := SortBy(kept, ChangeOf);
    assert forall r :: r in sorted <==> r in kept by {
      forall r
        ensures r in sorted <==> r in kept
      {
        assert r in sorted <==> r in multiset(sorted);
        assert r in kept <==> r in multiset(kept);
      }
    }
    sorted
  }

  /** The colour of a point's marker on the map. */
  datatype Colour = Red | Orange | Green

  /** A strong decrease is red, any other decrease orange, no change or an increase green. */
  function MarkerColour(change: real): (c: Colour)
    ensures c == Red <==> change < StrongDecreaseBelow
    ensures c == Orange <==> StrongDecreaseBelow <= change < 0.0
    ensures c == Green <==> change >= 0.0
  {
    if change < StrongDecreaseBelow then Red
    else if change < 0.0 then Orange
    else Green
  }

  /**
   The colours agree with the significant table: a marker is red exactly
   when the point is a significant decrease, an orange point is never
   significant, and a green point is significant exactly when it rose by
   more than the threshold.
   */
  lemma MarkerColourAgreesWithSignificance(r: ChangeRecord)
    ensures MarkerColour(r.ndviChange) == Red <==> IsSignificant(r) && IsDecrease(r.ndviChange)
    ensures MarkerColour(r.ndviChange) == Orange ==> !IsSignificant(r)
    ensures MarkerColour(r.ndviChange) == Green ==>
              (IsSignificant(r) <==> r.ndviChange > SignificanceThreshold)
  {
  }

  /** The number of markers of colour `c`. */
  function CountMarkers(records: seq<ChangeRecord>, c: Colour): (n: nat)
    ensures n <= |records|
  {
    if records == [] then 0
    else (if MarkerColour(records[0].ndviChange) == c then 1 else 0) + CountMarkers(records[1..], c)
  }

  /** The decreases of the report are exactly the red and orange markers of the map. */
  lemma {:induction false} DecreasesAreRedOrOrangeMarkers(records: seq<ChangeRecord>)
    ensures Count(Changes(records), IsDecrease)
         == CountMarkers(records, Red) + CountMarkers(records, Orange)
    ensures Count(Changes(records), IsDecrease) + CountMarkers(records, Green) == |records|
  {
    if records != [] {
      DecreasesAreRedOrOrangeMarkers(records[1..]);
      assert Changes(records)[1..] == Changes(records[1..]);
    }
  }

  /** One point of the heat layer: where, and how strongly the index changed. */
  datatype HeatPoint = HeatPoint(lat: real, lon: real, intensity: real)

  /**
   The heat layer: one point per record at the record's position, with the
   magnitude of its change as intensity; the intensity exceeds the
   significance threshold exactly for the significant records.
   */
  function HeatData(records: seq<ChangeRecord>): (h: seq<HeatPoint>)
    ensures |h| == |records|
    ensures forall i :: 0 <= i < |records| ==>
              && h[i].lat == records[i].latitude
              && h[i].lon == records[i].longitude
              && h[i].intensity >= 0.0
              && (h[i].intensity == records[i].ndviChange || h[i].intensity == -records[i].ndviChange)
              && (h[i].intensity > SignificanceThreshold <==> IsSignificant(records[i]))
  {
    if records == [] then []
    else
      var r := records[0];
      [HeatPoint(r.latitude, r.longitude, Abs(r.ndviChange))] + HeatData(records[1..])
  }

  /** Why no summary can be computed. */
  datatype StatsError = EmptyDataset

  /** The figures of the statistics report. */
  datatype Summary = Summary(
    count: nat,
    mean: real,
    median: real,
    variance: Option<real>,
    minChange: real,
    maxChange: real,
    directions: Directions,
    significant: seq<ChangeRecord>)

  /** How many changes went down and up, and what share of all changes each is. */
  datatype Directions = Directions(
    decreaseCount: nat,
    decreasePercent: real,
    increaseCount: nat,
    increasePercent: real)

  /** Two percentages of the same total add up like their counts. */
  lemma PercentagesAdd(a: nat, b: nat, total: nat)
    requires total > 0
    ensures Percentage(a, total) + Percentage(b, total) == Percentage(a + b, total)
  {
    var n := total as real;
    assert (a as real) / n + (b as real) / n == ((a + b) as real) / n;
  }

  /**
   The central figures of `s` fit the records: the count, the extremes (which
   are changes of actual records and bound all of them), the mean and the
   median of the changes, both between the extremes, and their sample
   variance, defined from two records on and never negative.
   */
  ghost predicate DescribesSpread(records: seq<ChangeRecord>, s: Summary) {
    && s.count == |records|
    && |records| > 0
    && s.mean == Mean(Changes(records))
    && s.median == Median(Changes(records))
    && s.variance == SampleVariance(Changes(records))
    && s.minChange <= s.median <= s.maxChange
    && s.minChange <= s.mean <= s.maxChange
    && (forall i :: 0 <= i < |records| ==> s.minChange <= records[i].ndviChange <= s.maxChange)
    && (exists i :: 0 <= i < |records| && records[i].ndviChange == s.minChange)
    && (exists i :: 0 <= i < |records| && records[i].ndviChange == s.maxChange)
    && (s.variance.Some? <==> |records| >= 2)
    && (s.variance.Some? ==> s.variance.value >= 0.0)
  }

  /**
   The direction figures fit the changes: they count the decreases and the
   increases, which are disjoint and leave out exactly the zero changes, and each percentage is its
   count over the number of changes, times 100.
   */
  ghost predicate DescribesDirections(xs: seq<real>, d: Directions) {
    && d.decreaseCount == Count(xs, IsDecrease)
    && d.increaseCount == Count(xs, IsIncrease)
    && d.decreaseCount + d.increaseCount + Count(xs, IsUnchanged) == |xs|
    && |xs| > 0
    && d.decreasePercent == Percentage(d.decreaseCount, |xs|)
    && d.increasePercent == Percentage(d.increaseCount, |xs|)
    && d.decreasePercent + d.increasePercent <= 100.0
  }

  /** The decrease and increase counts of the changes, with their percentages. */
  function DirectionFigures(xs: seq<real>): (d: Directions)
    requires |xs| > 0
    ensures d.decreaseCount == Count(xs, IsDecrease)
    ensures d.increaseCount == Count(xs, IsIncrease)
    ensures DescribesDirections(xs, d)
  {
    var down := Count(xs, IsDecrease);
    var up := Count(xs, IsIncrease);
    DirectionsPartition(xs);
    PercentagesBounded(down, up, |xs|);
    Directions(down, Percentage(down, |xs|), up, Percentage(up, |xs|))
  }

  /** The significant table of `s` lists exactly the significant records, ascending by change. */
  ghost predicate DescribesSignificant(records: seq<ChangeRecord>, s: Summary) {
    && SortedBy(s.significant, ChangeOf)
    && (forall r :: multiset(s.significant)[r] == if IsSignificant(r) then multiset(records)[r] else 0)
  }

  /** The figures of the report for a non-empty set of records. */
  function BuildSummary(records: seq<ChangeRecord>): Summary
    requires records != []
  {
    var xs := Changes(records);
    Summary(
      |records|, Mean(xs), Median(xs), SampleVariance(xs), Min(xs), Max(xs),
      DirectionFigures(xs), SignificantChanges(records))
  }

  /**
   The statistics report: undefined on no records; otherwise its spread, its
   direction counts and its significant table all fit the records.
   */
  function Summarize(records: seq<ChangeRecord>): (r: Result<Summary, StatsError>)
    ensures r.Failure? <==> records == []
    ensures r.Success? ==> DescribesSpread(records, r.value)
    ensures r.Success? ==> DescribesDirections(Changes(records), r.value.directions)
    ensures r.Success? ==> DescribesSignificant(records, r.value)
  {
    if records == [] then Failure(EmptyDataset)
    else
      SummarySpread(records);
      Success(BuildSummary(records))
  }

  /** The built summary's spread fits the records. */
  lemma SummarySpread(records: seq<ChangeRecord>)
    requires records != []
    ensures DescribesSpread(records, BuildSummary(records))
  {
    var lo, hi := ExtremesAreRecorded(records);
  }

  /** The percentages of two disjoint counts add up to at most 100. */
  lemma PercentagesBounded(a: nat, b: nat, total: nat)
    requires total > 0 && a + b <= total
    ensures Percentage(a, total) + Percentage(b, total) <= 100.0
  {
    PercentagesAdd(a, b, total);
    assert Percentage(a + b, total) <= 100.0;
  }

  /**
   The extremes of the change column are changes of actual records, `lo` and
   `hi`, and bound every record's change.
   */
  lemma ExtremesAreRecorded(records: seq<ChangeRecord>) returns (lo: nat, hi: nat)
    requires records != []
    ensures lo < |records| && records[lo].ndviChange == Min(Changes(records))
    ensures hi < |records| && records[hi].ndviChange == Max(Changes(records))
    ensures forall i :: 0 <= i < |records| ==>
              Min(Changes(records)) <= records[i].ndviChange <= Max(Changes(records))
  {
    var xs := Changes(records);
    assert forall i :: 0 <= i < |records| ==> xs[i] in xs;
    lo :| 0 <= lo < |xs| && xs[lo] == Min(xs);
    hi :| 0 <= hi < |xs| && xs[hi] == Max(xs);
  }

  /**
   When every record has the same change `c`, the report's mean and median
   are `c`; if `c` is a decrease, every point is counted as one (100%).
   */
  lemma UniformChangeSummary(records: seq<ChangeRecord>, c: real, s: Summary)
    requires forall i :: 0 <= i < |records| ==> records[i].ndviChange == c
    requires Summarize(records) == Success(s)
    ensures s.mean == c && s.median == c
    ensures c < 0.0 ==> s.directions.decreaseCount == |records| && s.directions.decreasePercent == 100.0
  {
    var xs := Changes(records);
    assert DescribesSpread(records, s);
    UniformValues(xs, c);
    if c < 0.0 {
      CountOfAll(xs, IsDecrease);
      assert DescribesDirections(xs, s.directions);
    }
  }
}

=== FILE: sampler.dfy ===
/**
 Bounded rejection sampling of points inside a region: draw candidates
 uniformly in the bounding box, keep the ones the region contains, and stop
 after `n` acceptances or `10 * n` draws, whichever comes first.
 */
module Sampler {
  import opened Geometry

  /** The injected random source: the draw used by attempt number `k` (counting from 0). */
  type RandomSource = nat -> Draw

  /** The number of draws the sampler allows itself for a request of `n` points. */
  function MaxAttempts(n: int): int {
    n * 10
  }

  /**
   Reference definition: the points accepted among the first `k` draws, in
   draw order.
   */
  function Accepted(region: Region, rng: RandomSource, k: nat): (ps: seq<Point>)
    ensures |ps| <= k
    ensures forall p :: p in ps ==> region.contains(p)
    ensures region.bounds.Valid() ==> forall p :: p in ps ==> region.bounds.Holds(p)
  {
    if k == 0 then []
    else
      var c := Candidate(region.bounds, rng(k - 1));
      CandidateInBox(region.bounds, rng(k - 1));
      Accepted(region, rng, k - 1) + (if region.contains(c) then [c] else [])
  }

  /** When the region contains every point, every draw is accepted. */
  lemma {:induction false} AllAcceptedWhenRegionIsEverything(region: Region, rng: RandomSource, k: nat)
    requires forall p :: region.contains(p)
    ensures |Accepted(region, rng, k)| == k
  {
    if k > 0 {
      AllAcceptedWhenRegionIsEverything(region, rng, k - 1);
    }
  }

  /** When the region contains no point at all, no draw is ever accepted. */
  lemma {:induction false} NoneAcceptedWhenRegionIsEmpty(region: Region, rng: RandomSource, k: nat)
    requires forall p :: !region.contains(p)
    ensures Accepted(region, rng, k) == []
  {
    if k > 0 {
      NoneAcceptedWhenRegionIsEmpty(region, rng, k - 1);
    }
  }

  /** Every draw keeps what the earlier draws accepted, so the count of accepted points never shrinks. */
  lemma {:induction false} AcceptedGrows(region: Region, rng: RandomSource, j: nat, k: nat)
    requires j <= k
    ensures |Accepted(region, rng, j)| <= |Accepted(region, rng, k)|
    ensures Accepted(region, rng, j) == Accepted(region, rng, k)[..|Accepted(region, rng, j)|]
  {
    if j < k {
      AcceptedGrows(region, rng, j, k - 1);
    }
  }

  /**
   A stop one draw after a draw that still held fewer than `n` points is the
   first stop: no earlier draw held `n` points.
   */
  lemma FirstStop(region: Region, nPoints: int, rng: RandomSource, attempts: nat)
    requires attempts > 0 ==> |Accepted(region, rng, attempts - 1)| < nPoints
    ensures forall j :: 0 <= j < attempts ==> |Accepted(region, rng, j)| < nPoints
  {
    forall j | 0 <= j < attempts
      ensures |Accepted(region, rng, j)| < nPoints
    {
      AcceptedGrows(region, rng, j, attempts - 1);
    }
  }

  /**
   Where the sampler stops when the region contains nothing (the whole budget
   is spent) or everything (one draw per requested point).
   */
  lemma StoppingPoint(region: Region, nPoints: int, rng: RandomSource, attempts: nat)
    requires attempts > 0 ==> |Accepted(region, rng, attempts - 1)| < nPoints
    requires nPoints <= 0 ==> attempts == 0
    requires nPoints > 0 ==> attempts <= MaxAttempts(nPoints)
    requires nPoints > 0 ==> |Accepted(region, rng, attempts)| >= nPoints || attempts == MaxAttempts(nPoints)
    ensures (forall p :: !region.contains(p)) ==>
              Accepted(region, rng, attempts) == [] && attempts == (if nPoints > 0 then MaxAttempts(nPoints) else 0)
    ensures (forall p :: region.contains(p)) && nPoints > 0 ==>
              |Accepted(region, rng, attempts)| == nPoints && attempts == nPoints
  {
    if forall p :: !region.contains(p) {
      NoneAcceptedWhenRegionIsEmpty(region, rng, attempts);
    }
    if forall p :: region.contains(p) {
      AllAcceptedWhenRegionIsEverything(region, rng, attempts);
      if attempts > 0 {
        AllAcceptedWhenRegionIsEverything(region, rng, attempts - 1);
      }
    }
  }

  /**
   `points` and `attempts` are a result of the sampler: the points accepted by
   the first `attempts` draws, where `attempts` is the first draw count at
   which `n` points are held, or the whole budget when that never happens
   (`FirstStop` turns "the draw before held fewer" into "every earlier draw
   held fewer").
   */
  predicate Sampled(region: Region, nPoints: int, rng: RandomSource, points: seq<Point>, attempts: nat) {
    && points == Accepted(region, rng, attempts)
    && (attempts > 0 ==> |Accepted(region, rng, attempts - 1)| < nPoints)
    && (nPoints <= 0 ==> attempts == 0)
    && (nPoints > 0 ==> attempts <= MaxAttempts(nPoints))
    && (nPoints > 0 ==> |points| == nPoints || attempts == MaxAttempts(nPoints))
  }

  /** The sampler's result is determined by the region, the count and the random source. */
  lemma SampledIsUnique(
    region: Region, nPoints: int, rng: RandomSource,
    points1: seq<Point>, attempts1: nat, points2: seq<Point>, attempts2: nat)
    requires Sampled(region, nPoints, rng, points1, attempts1)
    requires Sampled(region, nPoints, rng, points2, attempts2)
    ensures attempts1 == attempts2 && points1 == points2
  {
    FirstStop(region, nPoints, rng, attempts1);
    FirstStop(region, nPoints, rng, attempts2);
  }

  /**
   The sampler loop. Returns the accepted points and the number of draws it
   consumed. The result is the reference definition at the stopping draw, and
   the stopping draw is the first one at which `n` points are held, or the
   attempt budget if that never happens.
   */
  method GenerateRandomPoints(region: Region, nPoints: int, rng: RandomSource)
    returns (points: seq<Point>, attempts: nat)
    ensures points == Accepted(region, rng, attempts)
    ensures attempts > 0 ==> |Accepted(region, rng, attempts - 1)| < nPoints
    ensures forall j :: 0 <= j < attempts ==> |Accepted(region, rng, j)| < nPoints
    ensures nPoints <= 0 ==> points == [] && attempts == 0
    ensures nPoints > 0 ==> |points| <= nPoints && attempts <= MaxAttempts(nPoints)
    ensures nPoints > 0 ==> |points| == nPoints || attempts == MaxAttempts(nPoints)
    ensures forall p :: p in points ==> region.contains(p)
    ensures region.bounds.Valid() ==> forall p :: p in points ==> region.bounds.Holds(p)
    ensures (forall p :: !region.contains(p)) ==> points == [] && attempts == (if nPoints > 0 then MaxAttempts(nPoints) else 0)
    ensures (forall p :: region.contains(p)) && nPoints > 0 ==> |points| == nPoints && attempts == nPoints
    ensures Sampled(region, nPoints, rng, points, attempts)
  {
    points := [];
    attempts := 0;
    var maxAttempts := MaxAttempts(nPoints);
    while |points| < nPoints && attempts < maxAttempts
      invariant points == Accepted(region, rng, attempts)
      invariant attempts > 0 ==> |Accepted(region, rng, attempts - 1)| < nPoints
      invariant nPoints <= 0 ==> attempts == 0
      invariant nPoints > 0 ==> |points| <= nPoints && attempts <= maxAttempts
      decreases maxAttempts - attempts
    {
      var candidate := Candidate(region.bounds, rng(attempts));
      if region.contains(candidate) {
        points := points + [candidate];
      }
      attempts := attempts + 1;
    }
    FirstStop(region, nPoints, rng, attempts);
    StoppingPoint(region, nPoints, rng, attempts);
  }
}

=== FILE: sorting.dfy ===
/** Ascending sort of a sequence by a real-valued key, by insertion. */
module Sorting {

  /** The identity key, for sorting numbers by their own value. */
  function Identity(x: real): real {
    x
  }

  /** The keys of `s` never decrease from left to right. */
  predicate SortedBy<T>(s: seq<T>, key: T -> real) {
    forall i, j :: 0 <= i < j < |s| ==> key(s[i]) <= key(s[j])
  }

  /** In a sorted sequence no element has a smaller key than the first. */
  lemma HeadIsLeast<T>(s: seq<T>, key: T -> real)
    requires SortedBy(s, key) && s != []
    ensures forall y :: y in s ==> key(s[0]) <= key(y)
  {
    forall y | y in s
      ensures key(s[0]) <= key(y)
    {
      var k :| 0 <= k < |s| && s[k] == y;
      if k > 0 {
        assert key(s[0]) <= key(s[k]);
      }
    }
  }

  /** A head no larger than anything in a sorted tail gives a sorted sequence. */
  lemma SortedCons<T>(h: T, t: seq<T>, key: T -> real)
    requires SortedBy(t, key)
    requires forall y :: y in t ==> key(h) <= key(y)
    ensures SortedBy([h] + t, key)
  {
    var r := [h] + t;
    forall i, j | 0 <= i < j < |r|
      ensures key(r[i]) <= key(r[j])
    {
      assert r[j] == t[j - 1];
      if i == 0 {
        assert t[j - 1] in t;
      } else {
        assert r[i] == t[i - 1];
      }
    }
  }

  /** Inserts `x` into a sorted sequence before the first element of larger key. */
  function Insert<T(==)>(x: T, s: seq<T>, key: T -> real): (r: seq<T>)
    requires SortedBy(s, key)
    ensures SortedBy(r, key)
    ensures multiset(r) == multiset(s) + multiset{x}
    ensures |r| == |s| + 1
    ensures forall y :: y in r ==> y == x || y in s
  {
    if s == [] then [x]
    else if key(x) <= key(s[0]) then
      HeadIsLeast(s, key);
      SortedCons(x, s, key);
      [x] + s
    else
      SortedTail(s, key);
      HeadIsLeast(s, key);
      var rest := Insert(x, s[1..], key);
      assert s == [s[0]] + s[1..];
      BoundStaysBelow(s[0], x, s[1..], rest, key);
      SortedCons(s[0], rest, key);
      [s[0]] + rest
  }

  /** A key no larger than `x` and than every key of `t` is no larger than any key of `t` with `x` added. */
  lemma BoundStaysBelow<T>(h: T, x: T, t: seq<T>, r: seq<T>, key: T -> real)
    requires key(h) <= key(x)
    requires forall y :: y in t ==> key(h) <= key(y)
    requires forall y :: y in r ==> y == x || y in t
    ensures forall y :: y in r ==> key(h) <= key(y)
  {
  }

  /** A sorted rearrangement of `s`. */
  function SortBy<T(==)>(s: seq<T>, key: T -> real): (r: seq<T>)
    ensures SortedBy(r, key)
    ensures multiset(r) == multiset(s)
    ensures |r| == |s|
  {
    if s == [] then []
    else
      assert s == [s[0]] + s[1..];
      Insert(s[0], SortBy(s[1..], key), key)
  }

  /** Dropping the first element keeps a sequence sorted. */
  lemma SortedTail<T>(s: seq<T>, key: T -> real)
    requires SortedBy(s, key) && s != []
    ensures SortedBy(s[1..], key)
  {
    forall i, j | 0 <= i < j < |s[1..]|
      ensures key(s[1..][i]) <= key(s[1..][j])
    {
      assert s[1..][i] == s[i + 1] && s[1..][j] == s[j + 1];
    }
  }

  /** Two ascending arrangements of the same numbers start with the same number. */
  lemma SameHead(a: seq<real>, b: seq<real>)
    requires SortedBy(a, Identity) && SortedBy(b, Identity)
    requires multiset(a) == multiset(b) && a != [] && b != []
    ensures a[0] == b[0]
  {
    assert a[0] in multiset(b) && b[0] in multiset(a);
    assert a[0] in b && b[0] in a;
    HeadIsLeast(a, Identity);
    HeadIsLeast(b, Identity);
  }

  /** Removing the first element removes one occurrence of it from the multiset. */
  lemma MultisetTail(a: seq<real>)
    requires a != []
    ensures multiset(a[1..]) == multiset(a) - multiset{a[0]}
  {
    assert a == [a[0]] + a[1..];
  }

  /** Two ascending arrangements of the same numbers are the same sequence. */
  lemma {:induction false} AscendingIsUnique(a: seq<real>, b: seq<real>)
    requires SortedBy(a, Identity) && SortedBy(b, Identity)
    requires multiset(a) == multiset(b)
    ensures a == b
    decreases |a|
  {
    assert |a| == |b| by {
      assert |multiset(a)| == |multiset(b)|;
    }
    if a != [] {
      SameHead(a, b);
      MultisetTail(a);
      MultisetTail(b);
      SortedTail(a, Identity);
      SortedTail(b, Identity);
      AscendingIsUnique(a[1..], b[1..]);
      assert a == [a[0]] + a[1..] && b == [b[0]] + b[1..];
    }
  }

  /** An index of `xs` holding `x`, and the multiset left when that occurrence is removed. */
  lemma Occurrence(x: real, xs: seq<real>) returns (j: nat)
    requires x in multiset(xs)
    ensures j < |xs| && xs[j] == x
    ensures multiset(xs[..j] + xs[j + 1..]) == multiset(xs) - multiset{x}
  {
    assert x in xs;
    j :| 0 <= j < |xs| && xs[j] == x;
    assert xs == xs[..j] + [xs[j]] + xs[j + 1..];
  }
}

=== FILE: statistics.dfy ===
/**
 Summary statistics over a sequence of changes: sum, mean, median, minimum,
 maximum, direction counts and percentages, and the sample variance. All
 are deterministic functions of the multiset of values.
 */
module Statistics {
  import opened Wrappers
  import opened Sorting

  /** Absolute value. */
  function Abs(x: real): (r: real)
    ensures r >= 0.0
    ensures r == x || r == -x
  {
    if x < 0.0 then -x else x
  }

  /** The sum of `f` over the values of `xs`. */
  function SumOf(xs: seq<real>, f: real -> real): real {
    if xs == [] then 0.0 else f(xs[0]) + SumOf(xs[1..], f)
  }

  /** The sum of the values. */
  function Sum(xs: seq<real>): real {
    SumOf(xs, Identity)
  }

  /** A sum is its first value plus the sum of the rest. */
  lemma SumCons(xs: seq<real>)
    requires xs != []
    ensures Sum(xs) == xs[0] + Sum(xs[1..])
  {
    assert Identity(xs[0]) == xs[0];
  }

  /** The smallest value. */
  function Min(xs: seq<real>): (m: real)
    requires |xs| > 0
    ensures m in xs
    ensures forall x :: x in xs ==> m <= x
  {
    if |xs| == 1 then xs[0]
    else
      var rest := Min(xs[1..]);
      assert xs == [xs[0]] + xs[1..];
      if xs[0] <= rest then xs[0] else rest
  }

  /** The largest value. */
  function Max(xs: seq<real>): (m: real)
    requires |xs| > 0
    ensures m in xs
    ensures forall x :: x in xs ==> x <= m
  {
    if |xs| == 1 then xs[0]
    else
      var rest := Max(xs[1..]);
      assert xs == [xs[0]] + xs[1..];
      if rest <= xs[0] then xs[0] else rest
  }

  /** A sum of values that all lie in [lo, hi] lies between `n * lo` and `n * hi`. */
  lemma {:induction false} SumBounds(xs: seq<real>, lo: real, hi: real)
    requires forall x :: x in xs ==> lo <= x <= hi
    ensures (|xs| as real) * lo <= Sum(xs) <= (|xs| as real) * hi
  {
    if xs != [] {
      assert xs[0] in xs;
      assert forall x :: x in xs[1..] ==> x in xs;
      SumBounds(xs[1..], lo, hi);
      assert (|xs| as real) * lo == lo + (|xs[1..]| as real) * lo;
      assert (|xs| as real) * hi == hi + (|xs[1..]| as real) * hi;
    }
  }

  /** Dividing a total that lies in [n * lo, n * hi] by `n` gives a value in [lo, hi]. */
  lemma DivideBounds(total: real, n: real, lo: real, hi: real)
    requires n > 0.0
    requires n * lo <= total <= n * hi
    ensures lo <= total / n <= hi
  {
    var q := total / n;
    assert q * n == total;
  }

  /** The arithmetic mean; it lies between the minimum and the maximum. */
  function Mean(xs: seq<real>): (m: real)
    requires |xs| > 0
    ensures Min(xs) <= m <= Max(xs)
  {
    SumBounds(xs, Min(xs), Max(xs));
    DivideBounds(Sum(xs), |xs| as real, Min(xs), Max(xs));
    Sum(xs) / (|xs| as real)
  }

  /** `n` copies of the mean make the sum of the values. */
  lemma MeanTimesCountIsSum(xs: seq<real>)
    requires |xs| > 0
    ensures Mean(xs) * (|xs| as real) == Sum(xs)
  {
    var n := |xs| as real;
    assert (Sum(xs) / n) * n == Sum(xs);
  }

  /**
   When every value is `c`, the mean, the median and both extremes are `c`.
   */
  lemma UniformValues(xs: seq<real>, c: real)
    requires |xs| > 0
    requires forall i :: 0 <= i < |xs| ==> xs[i] == c
    ensures Min(xs) == c && Max(xs) == c
    ensures Mean(xs) == c
    ensures Median(xs) == c
  {
    assert xs[0] in xs;
    assert forall x :: x in xs ==> x == c;
  }

  /** Every element of a rearrangement of `xs` lies between the minimum and the maximum of `xs`. */
  lemma RearrangedWithinRange(xs: seq<real>, s: seq<real>, i: int)
    requires |xs| > 0
    requires multiset(s) == multiset(xs)
    requires 0 <= i < |s|
    ensures Min(xs) <= s[i] <= Max(xs)
  {
    assert s[i] in multiset(s);
    assert s[i] in xs;
  }

  /**
   The median: the middle value of the ascending arrangement, or the mean of
   the two middle values when the count is even. It lies between the
   minimum and the maximum.
   */
  function Median(xs: seq<real>): (m: real)
    requires |xs| > 0
    ensures Min(xs) <= m <= Max(xs)
  {
    var s := SortBy(xs, Identity);
    var n := |s|;
    RearrangedWithinRange(xs, s, n / 2);
    RearrangedWithinRange(xs, s, if n % 2 == 0 then n / 2 - 1 else n / 2);
    Middle(s)
  }

  /** The middle element of `s`, or the mean of its two middle elements when `|s|` is even. */
  function Middle(s: seq<real>): real
    requires |s| > 0
  {
    var n := |s|;
    if n % 2 == 1 then s[n / 2] else (s[n / 2 - 1] + s[n / 2]) / 2.0
  }

  /** The number of values satisfying `p`. */
  function Count(xs: seq<real>, p: real -> bool): (c: nat)
    ensures c <= |xs|
  {
    if xs == [] then 0 else (if p(xs[0]) then 1 else 0) + Count(xs[1..], p)
  }

  /** A change that lowered the index. */
  predicate IsDecrease(x: real) {
    x < 0.0
  }

  /** A change that raised the index. */
  predicate IsIncrease(x: real) {
    x > 0.0
  }

  /** A change of exactly zero, counted as neither a decrease nor an increase. */
  predicate IsUnchanged(x: real) {
    x == 0.0
  }

  /** Every value is exactly one of a decrease, an increase or unchanged. */
  lemma {:induction false} DirectionsPartition(xs: seq<real>)
    ensures Count(xs, IsDecrease) + Count(xs, IsIncrease) + Count(xs, IsUnchanged) == |xs|
  {
    if xs != [] {
      DirectionsPartition(xs[1..]);
    }
  }

  /** `count` out of `total`, as a percentage. */
  function Percentage(count: nat, total: nat): (r: real)
    requires total > 0
    ensures 0.0 <= r
    ensures count <= total ==> r <= 100.0
    ensures count == total ==> r == 100.0
    ensures r * (total as real) == (count as real) * 100.0
  {
    var n := total as real;
    var r := (count as real) / n * 100.0;
    assert (count as real) / n * n == count as real;
    assert count <= total ==> (count as real) / n <= 1.0;
    r
  }

  /** The squared distance of a value from `m`. */
  function SquaredDeviation(m: real): real -> real {
    x => (x - m) * (x - m)
  }

  /**
   The sample variance, with `n - 1` in the denominator; undefined for fewer
   than two values. It is never negative.
   */
  function SampleVariance(xs: seq<real>): (v: Option<real>)
    ensures v.Some? <==> |xs| >= 2
    ensures v.Some? ==> v.value >= 0.0
  {
    if |xs| < 2 then None
    else
      var squares := SumOf(xs, SquaredDeviation(Mean(xs)));
      SquaresAreNonNegative(xs, Mean(xs));
      SumOfNonNegative(xs, SquaredDeviation(Mean(xs)));
      Some(squares / ((|xs| - 1) as real))
  }

  /** Every squared deviation is at least zero. */
  lemma SquaresAreNonNegative(xs: seq<real>, m: real)
    ensures forall i :: 0 <= i < |xs| ==> SquaredDeviation(m)(xs[i]) >= 0.0
  {
  }

  /** A sum of non-negative terms is non-negative. */
  lemma {:induction false} SumOfNonNegative(xs: seq<real>, f: real -> real)
    requires forall i :: 0 <= i < |xs| ==> f(xs[i]) >= 0.0
    ensures SumOf(xs, f) >= 0.0
  {
    if xs != [] {
      assert forall i :: 0 <= i < |xs[1..]| ==> xs[1..][i] == xs[i + 1];
      SumOfNonNegative(xs[1..], f);
    }
  }

  /** A sum of zero terms is zero. */
  lemma {:induction false} SumOfZeros(xs: seq<real>, f: real -> real)
    requires forall i :: 0 <= i < |xs| ==> f(xs[i]) == 0.0
    ensures SumOf(xs, f) == 0.0
  {
    if xs != [] {
      assert forall i :: 0 <= i < |xs[1..]| ==> xs[1..][i] == xs[i + 1];
      SumOfZeros(xs[1..], f);
    }
  }

  /** The sum of `n` copies of `c` is `n * c`. */
  lemma {:induction false} SumOfConstant(xs: seq<real>, c: real)
    requires forall i :: 0 <= i < |xs| ==> xs[i] == c
    ensures Sum(xs) == (|xs| as real) * c
  {
    if xs != [] {
      assert forall i :: 0 <= i < |xs[1..]| ==> xs[1..][i] == xs[i + 1];
      SumOfConstant(xs[1..], c);
      assert (|xs| as real) * c == c + (|xs[1..]| as real) * c;
    }
  }

  /**
   Two values have sample variance half their squared difference: the two
   squared deviations from the midpoint, divided by `n - 1 = 1`.
   */
  lemma TwoValueVariance(a: real, b: real)
    ensures SampleVariance([a, b]) == Some((a - b) * (a - b) / 2.0)
  {
    var xs := [a, b];
    SumCons(xs);
    SumCons(xs[1..]);
    var m := Mean(xs);
    assert m == (a + b) / 2.0;
    assert SquaredDeviation(m)(a) == (a - b) * (a - b) / 4.0;
    assert SquaredDeviation(m)(b) == (a - b) * (a - b) / 4.0;
    assert xs[1..] == [b] && [b][1..] == [];
    assert SumOf([b], SquaredDeviation(m)) == SquaredDeviation(m)(b);
    assert SumOf(xs, SquaredDeviation(m)) == (a - b) * (a - b) / 2.0;
  }

  /**
   Three values 0, 1 and 2 have mean 1 and squared deviations 1, 0 and 1, so
   their sample variance is 2 / (n - 1) = 1.
   */
  lemma ThreeValueVariance(xs: seq<real>)
    requires xs == [0.0, 1.0, 2.0]
    ensures SampleVariance(xs) == Some(1.0)
  {
    SumCons(xs);
    SumCons(xs[1..]);
    SumCons(xs[2..]);
    assert xs[1..][1..] == xs[2..] && xs[2..][1..] == [];
    assert Mean(xs) == 1.0;
    var f := SquaredDeviation(1.0);
    assert SumOf(xs[2..], f) == 1.0;
    assert SumOf(xs[1..], f) == 1.0;
    assert SumOf(xs, f) == 2.0;
  }

  /** Equal values have zero sample variance. */
  lemma VarianceOfEqualValuesIsZero(xs: seq<real>)
    requires |xs| >= 2
    requires forall i :: 0 <= i < |xs| ==> xs[i] == xs[0]
    ensures SampleVariance(xs) == Some(0.0)
  {
    SumOfConstant(xs, xs[0]);
    var n := |xs| as real;
    assert Sum(xs) == n * xs[0];
    assert Sum(xs) / n == xs[0];
    assert Mean(xs) == xs[0];
    forall i | 0 <= i < |xs|
      ensures SquaredDeviation(xs[0])(xs[i]) == 0.0
    {
      assert xs[i] - xs[0] == 0.0;
    }
    SumOfZeros(xs, SquaredDeviation(xs[0]));
  }

  // ---------------------------------------------------------------------------
  // Invariance under rearrangement
  // ---------------------------------------------------------------------------

  /** Taking one element out of a sum. */
  lemma {:induction false} SumOfRemove(xs: seq<real>, j: nat, f: real -> real)
    requires j < |xs|
    ensures SumOf(xs, f) == f(xs[j]) + SumOf(xs[..j] + xs[j + 1..], f)
  {
    if j > 0 {
      SumOfRemove(xs[1..], j - 1, f);
      assert xs[..j] + xs[j + 1..] == [xs[0]] + (xs[1..][..j - 1] + xs[1..][j..]);
    } else {
      assert xs[..j] + xs[j + 1..] == xs[1..];
    }
  }

  /** Taking one element out of a count. */
  lemma {:induction false} CountRemove(xs: seq<real>, j: nat, p: real -> bool)
    requires j < |xs|
    ensures Count(xs, p) == (if p(xs[j]) then 1 else 0) + Count(xs[..j] + xs[j + 1..], p)
  {
    if j > 0 {
      CountRemove(xs[1..], j - 1, p);
      assert xs[..j] + xs[j + 1..] == [xs[0]] + (xs[1..][..j - 1] + xs[1..][j..]);
    } else {
      assert xs[..j] + xs[j + 1..] == xs[1..];
    }
  }

  /** Rearranging the values does not change a sum. */
  lemma {:induction false} SumOfPermutation(xs: seq<real>, ys: seq<real>, f: real -> real)
    requires multiset(xs) == multiset(ys)
    ensures SumOf(xs, f) == SumOf(ys, f)
    decreases |xs|
  {
    if xs == [] {
      assert |ys| == |multiset(ys)| == 0;
    } else {
      assert xs[0] in multiset(xs);
      var j := Occurrence(xs[0], ys);
      SumOfRemove(ys, j, f);
      assert xs == [xs[0]] + xs[1..];
      assert multiset(xs[1..]) == multiset(xs) - multiset{xs[0]};
      SumOfPermutation(xs[1..], ys[..j] + ys[j + 1..], f);
    }
  }

  /** Rearranging the values does not change a count. */
  lemma {:induction false} CountPermutation(xs: seq<real>, ys: seq<real>, p: real -> bool)
    requires multiset(xs) == multiset(ys)
    ensures Count(xs, p) == Count(ys, p)
    decreases |xs|
  {
    if xs == [] {
      assert |ys| == |multiset(ys)| == 0;
    } else {
      assert xs[0] in multiset(xs);
      var j := Occurrence(xs[0], ys);
      CountRemove(ys, j, p);
      assert xs == [xs[0]] + xs[1..];
      assert multiset(xs[1..]) == multiset(xs) - multiset{xs[0]};
      CountPermutation(xs[1..], ys[..j] + ys[j + 1..], p);
    }
  }

  /** Two sequences with the same multiset hold the same values and have the same length. */
  lemma SameValues(xs: seq<real>, ys: seq<real>)
    requires multiset(xs) == multiset(ys)
    ensures |ys| == |xs|
    ensures forall x :: x in xs <==> x in ys
  {
    assert |xs| == |multiset(xs)| == |multiset(ys)| == |ys|;
    forall x
      ensures x in xs <==> x in ys
    {
      assert x in xs <==> x in multiset(xs);
      assert x in ys <==> x in multiset(ys);
    }
  }

  /** The extremes depend only on the multiset of values. */
  lemma ExtremesDependOnlyOnMultiset(xs: seq<real>, ys: seq<real>)
    requires |xs| > 0
    requires multiset(xs) == multiset(ys)
    ensures |ys| > 0 && Min(xs) == Min(ys) && Max(xs) == Max(ys)
  {
    SameValues(xs, ys);
  }

  /** The mean depends only on the multiset of values. */
  lemma MeanDependsOnlyOnMultiset(xs: seq<real>, ys: seq<real>)
    requires |xs| > 0
    requires multiset(xs) == multiset(ys)
    ensures |ys| > 0 && Mean(xs) == Mean(ys)
  {
    SameValues(xs, ys);
    SumOfPermutation(xs, ys, Identity);
  }

  /** The median depends only on the multiset of values. */
  lemma MedianDependsOnlyOnMultiset(xs: seq<real>, ys: seq<real>)
    requires |xs| > 0
    requires multiset(xs) == multiset(ys)
    ensures |ys| > 0 && Median(xs) == Median(ys)
  {
    SameValues(xs, ys);
    AscendingIsUnique(SortBy(xs, Identity), SortBy(ys, Identity));
  }

  /** The sample variance depends only on the multiset of values. */
  lemma VarianceDependsOnlyOnMultiset(xs: seq<real>, ys: seq<real>)
    requires multiset(xs) == multiset(ys)
    ensures SampleVariance(xs) == SampleVariance(ys)
  {
    SameValues(xs, ys);
    if |xs| >= 2 {
      MeanDependsOnlyOnMultiset(xs, ys);
      SumOfPermutation(xs, ys, SquaredDeviation(Mean(xs)));
    }
  }

  /** When every value satisfies `p`, the count is the length. */
  lemma {:induction false} CountOfAll(xs: seq<real>, p: real -> bool)
    requires forall i :: 0 <= i < |xs| ==> p(xs[i])
    ensures Count(xs, p) == |xs|
  {
    if xs != [] {
      assert forall i :: 0 <= i < |xs[1..]| ==> xs[1..][i] == xs[i + 1];
      CountOfAll(xs[1..], p);
    }
  }

  /**
   The figures of a four-change example: [-0.3, -0.1, 0.0, 0.2] has mean
   -0.05, extremes -0.3 and 0.2, two decreases (50%) and one increase (25%).
   */
  lemma FourChangeExample(xs: seq<real>)
    requires xs == [-0.3, -0.1, 0.0, 0.2]
    ensures Mean(xs) == -0.05
    ensures Min(xs) == -0.3
    ensures Max(xs) == 0.2
    ensures Count(xs, IsDecrease) == 2 && Percentage(Count(xs, IsDecrease), |xs|) == 50.0
    ensures Count(xs, IsIncrease) == 1 && Percentage(Count(xs, IsIncrease), |xs|) == 25.0
  {
    var t1 := xs[1..];
    var t2 := t1[1..];
    var t3 := t2[1..];
    assert t3 == [0.2] && t3[1..] == [];
    SumCons(t3);
    SumCons(t2);
    SumCons(t1);
    SumCons(xs);
    assert Sum(xs) == -0.2;
    assert Count(t3, IsDecrease) == 0 && Count(t3, IsIncrease) == 1;
    assert Count(t2, IsDecrease) == 0 && Count(t2, IsIncrease) == 1;
    assert Count(t1, IsDecrease) == 1 && Count(t1, IsIncrease) == 1;
    assert Min(t1) == -0.1 && Max(t1) == 0.2;
  }

  /** The median of values already in ascending order is read off their middle. */
  lemma MedianOfAscending(xs: seq<real>)
    requires |xs| > 0
    requires SortedBy(xs, Identity)
    ensures Median(xs) == Middle(xs)
    ensures |xs| % 2 == 1 ==> Median(xs) == xs[|xs| / 2]
    ensures |xs| % 2 == 0 ==> Median(xs) == (xs[|xs| / 2 - 1] + xs[|xs| / 2]) / 2.0
  {
    var s := SortBy(xs, Identity);
    AscendingIsUnique(s, xs);
    assert Median(xs) == Middle(s);
  }

  /** The median of the four-change example is the mean of its two middle values, -0.05. */
  lemma FourChangeMedian(xs: seq<real>)
    requires xs == [-0.3, -0.1, 0.0, 0.2]
    ensures Median(xs) == -0.05
  {
    assert SortedBy(xs, Identity) by {
      forall i, j | 0 <= i < j < |xs|
        ensures Identity(xs[i]) <= Identity(xs[j])
      {
        assert xs[i] <= xs[j];
      }
    }
    MedianOfAscending(xs);
    assert Middle(xs) == (xs[1] + xs[2]) / 2.0;
  }
}

=== FILE: wrappers.dfy ===
/** The optional-value and value-or-error datatypes shared by the rest of the model. */
module Wrappers {

  /** A value that may be absent: Python's `None` versus a populated value. */
  datatype Option<+T> = None | Some(value: T) {

    /** The wrapped value, or `default` when absent (Python's `dict.get(key, default)`). */
    function GetOr(default: T): T {
      match this
      case Some(v) => v
      case None => default
    }
  }

  /** Either a computed value or an error that the caller must handle. */
  datatype Result<+R, +E> = Success(value: R) | Failure(error: E)
}
